=== FILE: README.md ===
# Access gateway and search filters of the institute website, in Dafny

The website has a premium-notes section gated by one shared student code. This project models the logic behind it. The rest of the site is static catalogues, routing and animation.

- **Server (access gateway).** The tables `users`, `unlocked_classes` and `notes` are an immutable `Storage.Store`. It holds one sequence of rows per table, in insertion order, and one serial counter per table. Each `DbStorage` method is a pure function over the store. An insert either appends one row or is rejected by a column constraint: `varchar` length (modelled as rejecting every over-long value; see "Left out"), the 32-bit range of the `integer` price, the unique student code, or the foreign key from grants to users. A rejected insert leaves the store unchanged. Each HTTP endpoint is a pure transition `(Store, inputs) -> Reply(Response, Store)`. `Routes.Handle` dispatches a `Request` to the right endpoint.
- **Gateway properties.** These are lemmas about sequences of requests handled one after another. Each (user, class) pair is a two-state machine, Locked → Unlocked, with no way back. Verify-code is idempotent. The unlock route's check-then-insert keeps at most one grant per pair. The storage layer alone would accept duplicates.
- **Client.** The class page and the notes page filter their static catalogues. An entry is kept when its lowercased title or subject contains the lowercased search text (`Seqs.Filter`, `Text.Includes`, `Search.Matches`). The notes page's "is unlocked" decision and its `handleUnlock` submit handler are also modelled. The browser's stored user id, the dialog state and the gateway store are explicit inputs and outputs. The requests sent to the gateway are recorded in order.

Modules: `Options` (the optional value both sides use), `Seqs` (order-preserving filter, subsequence), `Text` (ASCII lowercasing, substring search), `Search`, `Schema`, `Storage`, `Routes`, `Gateway`, `ClassPage`, `NotesClassPage`.

Two points of the code worth stating explicitly:
- **Foreign key.** `shared/schema.ts:14` declares `user_id` a foreign key to `users.id`. An unlock-class insert for an id that names no user is therefore rejected, the route's `catch` answers 500, and nothing is stored (`Storage.UnlockClass`, `Routes.UnlockClass`).
- **Unlock-class result.** The route answers `{success: true, message}` with either "Class unlocked successfully" or "Class already unlocked" (`Routes.UnlockClass`).

## Model

| member | source | states |
|---|---|---|
| Seqs.Filter | client/src/Pages/class-page.tsx:48-51 | The filter keeps exactly the elements that satisfy the predicate. Each kept element appears as often as in the input, and no other element appears. |
| Seqs.FilterIsSubsequence | client/src/Pages/class-page.tsx:48-51 | The filtered list is an order-preserving subsequence of its input. |
| Seqs.FilterKeepsAll | client/src/Pages/class-page.tsx:48-51 | A predicate that holds for every element drops nothing. |
| Text.Includes | client/src/Pages/class-page.tsx:49-50 | `includes` is true exactly when the needle starts at some position of the haystack. The empty needle occurs everywhere. |
| Text.Lower | client/src/Pages/class-page.tsx:49-50 | `toLowerCase`, on ASCII letters only: the result has the input's length and each character is the lowered input character. `Text.LowerIsIdempotent` adds that the result holds no capital and lowering it again changes nothing. The notes page uses it the same way at notes-class-page.tsx:154-155. |
| Text.LowerIsIdempotent | client/src/Pages/class-page.tsx:49-50 | A lowercased string holds no capital letter, and lowercasing it again leaves it unchanged. |
| Search.MatchIgnoresCase | client/src/Pages/class-page.tsx:48-51 | `Search.Matches` is the `filter` callback both pages share (also notes-class-page.tsx:153-156): the lowercased title or subject includes the lowercased search text. The lemma states that this match gives the same answer after lowercasing the title, the subject and the search text. |
| ClassPage.ClassIdFromRoute | client/src/Pages/class-page.tsx:42 | A missing or empty route id becomes class "8". Any other id is kept. The result is never empty. The notes page does the same at notes-class-page.tsx:16. |
| ClassPage.Chapters | client/src/Pages/class-page.tsx:11-46 | The lookup is empty exactly for ids outside the five catalogued classes. |
| ClassPage.FilteredChapters | client/src/Pages/class-page.tsx:46-51 | The shown chapters are a subsequence of the class's chapters, and every shown chapter matches. No matching chapter is lost. An empty search shows all chapters. An unknown class shows none. |
| ClassPage.SubjectColor | client/src/Pages/class-page.tsx:53-61 | The badge is the gray default exactly when the lowercased subject is not one of the four coloured subjects. |
| ClassPage.SubjectColorIgnoresCase | client/src/Pages/class-page.tsx:53-54 | Subjects with the same lowercase form get the same badge. |
| NotesClassPage.NotesData | client/src/Pages/notes-class-page.tsx:123-151 | The lookup is empty exactly for ids outside the five catalogued classes. Every catalogued note costs 40. |
| NotesClassPage.FilteredNotes | client/src/Pages/notes-class-page.tsx:151-156 | The shown notes are the order-preserving subsequence that matches the search, case-insensitively, on title or subject. Nothing that matches is lost. An unknown class shows none. |
| NotesClassPage.IsUnlocked | client/src/Pages/notes-class-page.tsx:27-37 | The class shows as unlocked exactly when a user id is stored and the status query has answered true. With no stored id, or no answer yet, it shows locked. |
| NotesClassPage.IsUnlockedShowsGatewayState | client/src/Pages/notes-class-page.tsx:27-37 | Once answered, the displayed state equals the gateway's grant check for the stored user and the class. |
| NotesClassPage.VerifyThenUnlock | client/src/Pages/notes-class-page.tsx:89-104 | Verify-code is sent first, then unlock-class with the id that verification returned, whatever the class id; that id is stored. With a class id that fits its column, the dialog closes and the class ends up unlocked for the user that holds the code. With a longer class id and a store that keeps the schema constraints, unlock-class fails and the dialog shows the error. |
| NotesClassPage.UnlockOnly | client/src/Pages/notes-class-page.tsx:105-112 | Only unlock-class is sent, with the stored id. For an existing user and a class id of at most two characters, the dialog closes and the class ends up unlocked. For a stored id that names no user, the dialog and the store are left as they were. |
| NotesClassPage.HandleUnlock | client/src/Pages/notes-class-page.tsx:83-113 | A wrong code sets the dialog error and sends no request. Otherwise the stored id chooses between the two paths. With no stored id, verify-code and then unlock-class are sent for every class id, and the verified id is stored. With the valid code, a short enough class id and an existing stored user (if any), the class ends up unlocked for the stored user. |
| Storage.FirstIndexWithCode | server/storage.ts:22-25 | The result is the position of the first user holding the code, or nothing exactly when no user holds it. |
| Storage.GetUserByStudentCode | server/storage.ts:22-25 | The result is the first user with an equal code, or nothing exactly when no user holds the code. |
| Storage.GetUserByStudentCodeIsUnique | shared/schema.ts:8 | Under the unique constraint, the user found by code is the only user with that code. |
| Storage.CreateUser | server/storage.ts:27-30 | The insert succeeds exactly when the code fits `varchar(10)` and no user holds it. It appends one user with a fresh id that lookup by code then finds. Grants and notes are untouched and the schema constraints are kept. |
| Storage.GetUnlockedClasses | server/storage.ts:32-34 | The result is exactly the grants of the user, as a subsequence in store order. |
| Storage.IsClassUnlocked | server/storage.ts:36-43 | True exactly when one grant matches both the user id and the class id. |
| Storage.UnlockClass | server/storage.ts:45-48 | In the model, the insert succeeds exactly when the class id fits `varchar(2)` and the user exists (the foreign key). It appends one grant for the pair and keeps existing rows. Users and notes are untouched and the constraints are kept. |
| Storage.GetNotesByClass | server/storage.ts:50-52 | The result is exactly the class's notes, in store order. It is empty exactly when no note has that class. |
| Storage.CreateNote | server/storage.ts:58-61 | The insert appends one note that carries the given fields. A note inserted without a price costs 40. It succeeds exactly when the class id fits `varchar(2)` and any given price fits the 32-bit `integer` column; otherwise it is rejected as too long or out of range. |
| Routes.VerifyCode | server/routes.ts:13-38 | A missing, empty, non-string or wrong code gets 401 "Invalid student code" and leaves the store unchanged. The valid code returns the id of the user holding it. That user already existed (store unchanged) or was appended once (grants and notes unchanged). |
| Routes.UnlockedClasses | server/routes.ts:41-50 | The response lists exactly the user's grants. The store is unchanged. |
| Routes.UnlockStatus | server/routes.ts:53-63 | `isUnlocked` is true exactly when some grant matches the pair. An unknown user with an id in the 32-bit range gets false. The store is unchanged. |
| Routes.UnlockClass | server/routes.ts:66-94 | A wrong code gets 401 and changes nothing. A pair that already has a grant gets "Class already unlocked" with no insert. Otherwise exactly one grant is appended and the pair reads as unlocked, or a rejected insert (in the model, an over-long class id or an unknown user) gets 500 and changes nothing. Every other pair's state is unchanged. |
| Routes.Notes | server/routes.ts:97-106 | The response lists exactly the class's notes, unfiltered by unlock state. An unknown class gets an empty list. The store is unchanged. |
| Routes.Handle | server/routes.ts:12-106 | Notes are never written. Only verify-code writes users and only unlock-class writes grants. Every request keeps the schema constraints. |
| Gateway.TakenCodeHasOneRow | shared/schema.ts:8 | With unique codes, a code held by some user is held by exactly one row. |
| Gateway.VerifyTwiceSameUser | server/routes.ts:22-31 | Two verify-code calls with the valid code return the same user id. The second leaves the store unchanged, and one user row holds the code. |
| Gateway.HandleKeepsGrantsUnique | server/routes.ts:82-89 | No request creates a second grant for a (user, class) pair. |
| Gateway.StorageAcceptsDuplicateGrant | shared/schema.ts:12-17 | The schema has no uniqueness on (user, class). Two storage inserts for one pair both succeed in a valid store. |
| Gateway.UnlockTwiceInsertsOnce | server/routes.ts:82-89 | After a successful unlock, a second one reports "Class already unlocked" and changes nothing. |
| Gateway.UnlockedStaysUnlocked | server/storage.ts:5-19 | No request ever moves a pair from Unlocked back to Locked. Storage has no update or delete. |
| Gateway.UnlockNeedsValidRequest | server/routes.ts:76-89 | The only move from Locked to Unlocked is an unlock-class request for exactly that pair with the valid code. |
| Gateway.LockedWithoutUnlockRequest | server/routes.ts:76-89 | A pair stays Locked through any request sequence that holds no valid unlock request for it. |
| Gateway.RunKeepsInvariants | shared/schema.ts:6-17 | Every store reached by sequential requests keeps the schema constraints and at most one grant per pair. The constraints are: code length and uniqueness, class id lengths, the foreign key and increasing serial ids. |
| Gateway.FreshVerifyCreatesFirstUser | server/routes.ts:15-27 | On fresh tables the valid code creates user 1 and answers with id 1. "0000" gets 401 and creates nothing. |
| Gateway.FirstUserUnlocksClassTen | server/routes.ts:76-89 | User 1 unlocks class "10". Class "10" then reads as unlocked for that user and class "11" does not. |
| Gateway.FreshStoreWalkthrough | server/routes.ts:13-63 | On fresh tables: the valid code yields user 1, unlocking "10" for user 1 succeeds, "10" then reads as unlocked and "11" as locked, and "0000" gets 401. |

## Left out

- HTTP and framework plumbing are not modelled. Route parameters arrive as integers, so the `parseInt`/NaN handling is not modelled. The body of `/api/unlock-class` arrives already typed, so the zod parse failure (which the `catch` turns into 500) is not modelled. Store faults other than constraint violations are not modelled either, and neither is logging.
- Storage.UnlockClass: `varchar(n)` is modelled as rejecting every value longer than `n`, and the same holds in `Storage.CreateUser` and `Storage.CreateNote`. Postgres instead truncates a value whose excess characters are all spaces, and stores it, while `=` on the column still compares trailing spaces. So unlock-class with class id "12 " for an existing user answers "Class unlocked successfully" and stores a grant for "12", and the pair (user, "12 ") still reads as locked. Repeating the request stores a second "12" grant. The model answers 500 instead, so `Gateway.RunKeepsInvariants` and `Gateway.HandleKeepsGrantsUnique` do not cover space-padded class ids.
- `getAllNotes` and the `IStorage` interface are left out. No route uses them, and they add no logic.
- Timestamps (`created_at`, `unlocked_at`) are left out. No decision depends on them.
- Serial values are modelled as unbounded increasing counters. A rejected insert does not use one up. Postgres may skip a value after a failed insert and has a 32-bit ceiling; no property here depends on generated ids having no gaps, and the 32-bit bound on ids that requests carry is the next line.
- Routes.UnlockStatus: user ids are modelled as unbounded integers, and the same holds for `Routes.UnlockedClasses` and `Routes.UnlockClass`. In the program `user_id` is a 32-bit `integer` column, so an id outside [-2^31, 2^31) (such as `GET /api/unlocked-classes/99999999999/10`) makes Postgres fail the query, and the `catch` answers 500 (server/routes.ts:46-49 and 59-62). The model answers 200 with `[]` or `{isUnlocked: false}` there. Likewise a non-integer `userId` such as 1.5 passes `z.number()` in the unlock-class body and then fails in Postgres; the model's `int` field cannot express it. The "unknown user gets false" and "lists exactly the user's grants" promises therefore hold only for ids in the 32-bit range.
- Concurrency is left out. Two unlock-class requests for one pair can interleave between the check and the insert and store duplicate grants. The model handles requests one at a time, so the at-most-one-grant property is stated for sequential requests only.
- `toLowerCase` is modelled on ASCII letters only. Unicode case mapping is not modelled.
- Catalogue lookup by a key inherited from the JavaScript object prototype (such as `constructor`) is not modelled. Ids are looked up only among the catalogued classes.
- The client stores the user id as text and reads it back with `parseInt`. It is modelled as an optional integer, so that round trip is assumed.
- React state, React Query caching and invalidation, toasts, the payment button and the dialog's open/close controls outside `handleUnlock` are left out.
- Rendering, routing and animation are left out: `home.tsx`, `layout.tsx`, `poem-page.tsx`, `notes-landing.tsx`, `App.tsx` and the card delays.

=== FILE: class_page.dfy ===
/** The study-material page of one class: the class id taken from the route,
    the static chapter catalogue, the search filter over it and the colour of a
    subject badge. */
module ClassPage {
  import opened Options
  import opened Seqs
  import Search
  import Text

  datatype Chapter = Chapter(id: int, subject: string, title: string, desc: string)

  /** The class shown when the route carries no id. */
  const DefaultClassId := "8"

  /** The classes the catalogue has entries for. */
  const CatalogClasses: set<string> := {"8", "9", "10", "11", "12"}

  /** `params?.id || "8"`: a missing or empty route parameter falls back to the
      default class; any other value is used as it is. */
  function ClassIdFromRoute(param: Option<string>): (classId: string)
    ensures classId != ""
    ensures param.None? || param.value == "" ==> classId == DefaultClassId
    ensures param.Some? && param.value != "" ==> classId == param.value
  {
    if param.Some? && param.value != "" then param.value else DefaultClassId
  }

  /** The chapter catalogue of a class; a class outside the catalogue has none. */
  function Chapters(classId: string): (chapters: seq<Chapter>)
    ensures classId !in CatalogClasses <==> chapters == []
  {
    if classId == "8" then
      [ Chapter(1, "Mathematics", "Rational Numbers", "Properties and operations of rational numbers"),
        Chapter(2, "Science", "Crop Production", "Methods of crop production and management"),
        Chapter(3, "English", "The Best Christmas Present", "A heartwarming story about war and peace"),
        Chapter(4, "Mathematics", "Linear Equations", "Solving equations in one variable") ]
    else if classId == "9" then
      [ Chapter(1, "Mathematics", "Number Systems", "Irrational numbers and real number line"),
        Chapter(2, "Science", "Matter in Our Surroundings", "Physical nature of matter"),
        Chapter(3, "English", "The Fun They Had", "Isaac Asimov's vision of future schools") ]
    else if classId == "10" then
      [ Chapter(1, "Mathematics", "Real Numbers", "Euclid's division lemma and fundamental theorem"),
        Chapter(2, "Science", "Chemical Reactions", "Types of chemical reactions and equations"),
        Chapter(3, "Social Science", "Rise of Nationalism in Europe", "French revolution and the idea of nation") ]
    else if classId == "11" then
      [ Chapter(1, "Physics", "Physical World", "Scope and excitement of physics"),
        Chapter(2, "Chemistry", "Structure of Atom", "Bohr's model and quantum mechanical model"),
        Chapter(3, "Mathematics", "Sets", "Representation and types of sets") ]
    else if classId == "12" then
      [ Chapter(1, "Physics", "Electric Charges and Fields", "Coulomb's law and electric field lines"),
        Chapter(2, "Chemistry", "Solutions", "Types of solutions and colligative properties"),
        Chapter(3, "Mathematics", "Relations and Functions", "Types of relations and functions") ]
    else
      []
  }

  predicate ChapterMatches(search: string, chapter: Chapter)
  {
    Search.Matches(chapter.title, chapter.subject, search)
  }

  /** `filteredChapters`: the chapters of the class whose title or subject
      contains the search text, ignoring case, in catalogue order. Nothing that
      matches is lost, and the empty search shows the whole catalogue. */
  function FilteredChapters(classId: string, search: string): (shown: seq<Chapter>)
    ensures IsSubsequence(shown, Chapters(classId))
    ensures forall i | 0 <= i < |shown| :: ChapterMatches(search, shown[i])
    ensures forall ch | ch in Chapters(classId) && ChapterMatches(search, ch) :: ch in shown
    ensures search == "" ==> shown == Chapters(classId)
    ensures classId !in CatalogClasses ==> shown == []
  {
    var chapters := Chapters(classId);
    var keep := (ch: Chapter) => ChapterMatches(search, ch);
    FilterIsSubsequence(chapters, keep);
    if search == "" then
      FilterKeepsAll(chapters, keep);
      Filter(chapters, keep)
    else
      Filter(chapters, keep)
  }

  const MathematicsBadge := "bg-blue-100 text-blue-700 border-blue-200"
  const ScienceBadge := "bg-green-100 text-green-700 border-green-200"
  const PhysicsBadge := "bg-purple-100 text-purple-700 border-purple-200"
  const ChemistryBadge := "bg-yellow-100 text-yellow-700 border-yellow-200"
  const DefaultBadge := "bg-gray-100 text-gray-700 border-gray-200"

  /** The subjects with a colour of their own, in lower case. */
  const ColouredSubjects: set<string> := {"mathematics", "science", "physics", "chemistry"}

  /** `getSubjectColor`: the badge classes of a subject, chosen on its lowercased
      name; every subject outside the four coloured ones gets the gray default. */
  function SubjectColor(subject: string): (badge: string)
    ensures badge == DefaultBadge <==> Text.Lower(subject) !in ColouredSubjects
  {
    var key := Text.Lower(subject);
    if key == "mathematics" then MathematicsBadge
    else if key == "science" then ScienceBadge
    else if key == "physics" then PhysicsBadge
    else if key == "chemistry" then ChemistryBadge
    else DefaultBadge
  }

  /** The badge depends only on the subject's lowercased form, so subjects
      that differ only in case get the same colour. */
  lemma SubjectColorIgnoresCase(a: string, b: string)
    requires Text.Lower(a) == Text.Lower(b)
    ensures SubjectColor(a) == SubjectColor(b)
    ensures SubjectColor(a) == SubjectColor(Text.Lower(a))
  {
    Text.LowerIsIdempotent(a);
  }
}

=== FILE: gateway.dfy ===
/** Properties of the access gateway across sequences of requests handled one
    after another: identity resolution is idempotent, each (user, class) pair
    moves only from Locked to Unlocked and only through a valid unlock request,
    and the check-then-insert keeps at most one grant per pair. */
module Gateway {
  import opened Options
  import opened Schema
  import opened Storage
  import opened Routes
  import Seqs

  /** At most one grant per (user, class) pair. The schema declares no such
      constraint; only the unlock route's check-then-insert maintains it. */
  ghost predicate GrantsUnique(grants: seq<UnlockedClass>)
  {
    forall k, l | 0 <= k < l < |grants| ::
      !(grants[k].userId == grants[l].userId && grants[k].classId == grants[l].classId)
  }

  /** The two states of a (user, class) pair. */
  datatype Access = Locked | Unlocked

  function AccessOf(s: Store, userId: int, classId: string): Access
  {
    if IsClassUnlocked(s, userId, classId) then Unlocked else Locked
  }

  /** The store after handling `reqs` one at a time, in order. */
  function Run(s: Store, reqs: seq<Request>): Store
    decreases |reqs|
  {
    if |reqs| == 0 then s else Run(Handle(s, reqs[0]).store, reqs[1..])
  }

  /** The user rows holding `code`. */
  function UsersWithCode(users: seq<User>, code: string): seq<User>
  {
    Seqs.Filter(users, (u: User) => u.studentCode == code)
  }

  /** In a valid store a code taken by some user is held by exactly one row. */
  lemma {:induction false} TakenCodeHasOneRow(users: seq<User>, code: string)
    requires CodesUnique(users)
    requires CodeTaken(users, code)
    ensures |UsersWithCode(users, code)| == 1
    decreases |users|
  {
    assert users == [users[0]] + users[1..];
    if users[0].studentCode == code {
      forall i | 0 <= i < |users[1..]| ensures users[1..][i].studentCode != code {
        assert users[1..][i] == users[i + 1];
      }
      assert UsersWithCode(users[1..], code) == [];
    } else {
      var i :| 0 <= i < |users| && users[i].studentCode == code;
      assert users[1..][i - 1].studentCode == code;
      TakenCodeHasOneRow(users[1..], code);
    }
  }

  /** Verifying the valid code twice in a row resolves to the same user, and
      afterwards exactly one user row holds the code. */
  lemma VerifyTwiceSameUser(s: Store)
    requires ValidStore(s)
    ensures var first := VerifyCode(s, Str(ValidStudentCode));
            var second := VerifyCode(first.store, Str(ValidStudentCode));
            && second.response.body.VerifiedBody?
            && second.response.body.userId == first.response.body.userId
            && second.store == first.store
            && |UsersWithCode(second.store.users, ValidStudentCode)| == 1
  {
    var first := VerifyCode(s, Str(ValidStudentCode));
    var i :| 0 <= i < |first.store.users| && first.store.users[i] == User(first.response.body.userId, ValidStudentCode);
    GetUserByStudentCodeIsUnique(first.store, ValidStudentCode, i);
    TakenCodeHasOneRow(first.store.users, ValidStudentCode);
  }

  /** Handling any request keeps the at-most-one-grant-per-pair invariant:
      the only insert happens after the pair was found to have no grant. */
  lemma HandleKeepsGrantsUnique(s: Store, req: Request)
    requires GrantsUnique(s.grants)
    ensures GrantsUnique(Handle(s, req).store.grants)
  {
    var s' := Handle(s, req).store;
    if req.PostUnlockClass? && |s'.grants| != |s.grants| {
      var n := |s.grants|;
      forall k, l | 0 <= k < l < |s'.grants|
        ensures !(s'.grants[k].userId == s'.grants[l].userId && s'.grants[k].classId == s'.grants[l].classId)
      {
        if l == n {
          assert s'.grants[k] == s.grants[k];
        } else {
          assert s'.grants[k] == s.grants[k] && s'.grants[l] == s.grants[l];
        }
      }
    }
  }

  /** The check-then-insert is the only guard: the storage insert on its own
      accepts a second grant for the same pair in a valid store. */
  lemma StorageAcceptsDuplicateGrant()
    ensures var s := Store([User(1, ValidStudentCode)], [], [], 2, 1, 1);
            var once := Storage.UnlockClass(s, InsertUnlockedClass(1, "10"));
            && ValidStore(s)
            && once.Ok?
            && var twice := Storage.UnlockClass(once.value.store, InsertUnlockedClass(1, "10"));
               && twice.Ok?
               && ValidStore(twice.value.store)
               && !GrantsUnique(twice.value.store.grants)
  {
    var s := Store([User(1, ValidStudentCode)], [], [], 2, 1, 1);
    assert HasUser(s.users, 1) by { assert s.users[0].id == 1; }
    var once := Storage.UnlockClass(s, InsertUnlockedClass(1, "10"));
    var twice := Storage.UnlockClass(once.value.store, InsertUnlockedClass(1, "10"));
    var g := twice.value.store.grants;
    assert g[0].userId == g[1].userId && g[0].classId == g[1].classId;
  }

  /** Unlocking twice in a row: the second call reports the existing grant,
      inserts nothing, and the pair holds exactly the grants the first left. */
  lemma UnlockTwiceInsertsOnce(s: Store, userId: int, classId: string)
    requires GrantsUnique(s.grants)
    ensures var first := Routes.UnlockClass(s, userId, classId, ValidStudentCode);
            var second := Routes.UnlockClass(first.store, userId, classId, ValidStudentCode);
            && (first.response.status == 200 ==>
                  second.response == Response(200, SuccessBody(AlreadyUnlockedMessage)))
            && second.store == first.store
            && GrantsUnique(second.store.grants)
  {
    HandleKeepsGrantsUnique(s, PostUnlockClass(userId, classId, ValidStudentCode));
  }

  /** Locked to Unlocked is one-directional: no request takes a grant away. */
  lemma UnlockedStaysUnlocked(s: Store, req: Request, userId: int, classId: string)
    requires AccessOf(s, userId, classId) == Unlocked
    ensures AccessOf(Handle(s, req).store, userId, classId) == Unlocked
  {
    var s' := Handle(s, req).store;
    var k :| 0 <= k < |s.grants| && s.grants[k].userId == userId && s.grants[k].classId == classId;
    if req.PostUnlockClass? && |s'.grants| != |s.grants| {
      assert s'.grants[k] == s.grants[k];
    }
  }

  /** The only transition from Locked to Unlocked is a valid-code unlock
      request for exactly that pair. */
  lemma UnlockNeedsValidRequest(s: Store, req: Request, userId: int, classId: string)
    requires AccessOf(s, userId, classId) == Locked
    requires AccessOf(Handle(s, req).store, userId, classId) == Unlocked
    ensures req == PostUnlockClass(userId, classId, ValidStudentCode)
  {
  }

  /** A pair no request unlocks stays Locked through any sequence of requests. */
  lemma {:induction false} LockedWithoutUnlockRequest(s: Store, reqs: seq<Request>, userId: int, classId: string)
    requires AccessOf(s, userId, classId) == Locked
    requires forall i | 0 <= i < |reqs| :: reqs[i] != PostUnlockClass(userId, classId, ValidStudentCode)
    ensures AccessOf(Run(s, reqs), userId, classId) == Locked
    decreases |reqs|
  {
    if |reqs| > 0 {
      var s1 := Handle(s, reqs[0]).store;
      if AccessOf(s1, userId, classId) == Unlocked {
        UnlockNeedsValidRequest(s, reqs[0], userId, classId);
      }
      LockedWithoutUnlockRequest(s1, reqs[1..], userId, classId);
    }
  }

  /** Every store reachable by sequential requests satisfies the schema's
      constraints and holds at most one grant per pair. */
  lemma {:induction false} RunKeepsInvariants(s: Store, reqs: seq<Request>)
    requires ValidStore(s) && GrantsUnique(s.grants)
    ensures ValidStore(Run(s, reqs)) && GrantsUnique(Run(s, reqs).grants)
    decreases |reqs|
  {
    if |reqs| > 0 {
      HandleKeepsGrantsUnique(s, reqs[0]);
      RunKeepsInvariants(Handle(s, reqs[0]).store, reqs[1..]);
    }
  }

  /** The store holding only the first verified user. */
  const FirstUserStore := Store([User(1, ValidStudentCode)], [], [], 2, 1, 1)

  /** On fresh tables the valid code creates user 1; "0000" is refused. */
  lemma FreshVerifyCreatesFirstUser()
    ensures VerifyCode(EmptyStore, Str(ValidStudentCode))
            == Reply(Response(200, VerifiedBody(1, CodeVerifiedMessage)), FirstUserStore)
    ensures VerifyCode(EmptyStore, Str("0000")) == Reply(Unauthorized, EmptyStore)
  {
    assert GetUserByStudentCode(EmptyStore, ValidStudentCode) == None;
    assert !CodeTaken(EmptyStore.users, ValidStudentCode);
    assert EmptyStore.users + [User(1, ValidStudentCode)] == FirstUserStore.users;
    var created := CreateUser(EmptyStore, InsertUser(ValidStudentCode));
    assert created == Ok(Inserted(User(1, ValidStudentCode), FirstUserStore));
  }

  /** User 1 unlocks class "10": afterwards "10" is unlocked for that user and
      "11" is not. */
  lemma FirstUserUnlocksClassTen()
    ensures var u := Routes.UnlockClass(FirstUserStore, 1, "10", ValidStudentCode);
            && u.response == Response(200, SuccessBody(UnlockedMessage))
            && UnlockStatus(u.store, 1, "10").response.body == StatusBody(true)
            && UnlockStatus(u.store, 1, "11").response.body == StatusBody(false)
  {
    assert HasUser(FirstUserStore.users, 1) by { assert FirstUserStore.users[0].id == 1; }
    var u := Routes.UnlockClass(FirstUserStore, 1, "10", ValidStudentCode);
    assert u.store.grants == [UnlockedClass(1, 1, "10")];
  }

  /** The walk-through of the access flow on fresh tables: the valid code
      yields user 1, unlocking class "10" succeeds, after which "10" is
      unlocked for that user and "11" is not; the code "0000" is refused. */
  lemma FreshStoreWalkthrough()
    ensures var v := VerifyCode(EmptyStore, Str(ValidStudentCode));
            && v.response == Response(200, VerifiedBody(1, CodeVerifiedMessage))
            && var u := Routes.UnlockClass(v.store, 1, "10", ValidStudentCode);
               && u.response == Response(200, SuccessBody(UnlockedMessage))
               && UnlockStatus(u.store, 1, "10").response.body == StatusBody(true)
               && UnlockStatus(u.store, 1, "11").response.body == StatusBody(false)
    ensures VerifyCode(EmptyStore, Str("0000")) == Reply(Unauthorized, EmptyStore)
  {
    FreshVerifyCreatesFirstUser();
    FirstUserUnlocksClassTen();
  }
}

=== FILE: notes_page.dfy ===
/** The premium-notes page of one class: the static notes catalogue and its
    search filter, the "is unlocked" display decision, and the unlock dialog's
    submit handler, which talks to the access gateway. The browser's stored
    user id and the server are explicit inputs and outputs here. */
module NotesClassPage {
  import opened Options
  import opened Schema
  import opened Seqs
  import opened Routes
  import Storage
  import Search

  datatype NoteCard = NoteCard(id: int, subject: string, title: string, price: int)

  /** The classes the notes catalogue has entries for. */
  const NotesClasses: set<string> := {"8", "9", "10", "11", "12"}

  /** The price printed on every card of the client-side catalogue. */
  const CardPrice := 40

  /** The notes catalogue of a class; a class outside the catalogue has none. */
  function NotesData(classId: string): (cards: seq<NoteCard>)
    ensures classId !in NotesClasses <==> cards == []
    ensures forall i | 0 <= i < |cards| :: cards[i].price == CardPrice
  {
    if classId == "8" then
      [ NoteCard(1, "Science", "Microorganisms: Friend and Foe", 40),
        NoteCard(2, "Math", "Algebraic Expressions", 40),
        NoteCard(3, "History", "The Making of the National Movement", 40) ]
    else if classId == "9" then
      [ NoteCard(1, "Science", "Atoms and Molecules", 40),
        NoteCard(2, "Math", "Polynomials", 40),
        NoteCard(3, "Geography", "Drainage", 40) ]
    else if classId == "10" then
      [ NoteCard(1, "Science", "Life Processes", 40),
        NoteCard(2, "Math", "Trigonometry", 40),
        NoteCard(3, "History", "Nationalism in India", 40) ]
    else if classId == "11" then
      [ NoteCard(1, "Physics", "Kinematics", 40),
        NoteCard(2, "Chemistry", "Chemical Bonding", 40),
        NoteCard(3, "Math", "Complex Numbers", 40) ]
    else if classId == "12" then
      [ NoteCard(1, "Physics", "Electrostatics", 40),
        NoteCard(2, "Chemistry", "Electrochemistry", 40),
        NoteCard(3, "Math", "Calculus - Integration", 40) ]
    else
      []
  }

  predicate CardMatches(search: string, card: NoteCard)
  {
    Search.Matches(card.title, card.subject, search)
  }

  /** `filteredNotes`: the notes of the class whose title or subject contains
      the search text, ignoring case, in catalogue order; nothing that matches
      is lost. */
  function FilteredNotes(classId: string, search: string): (shown: seq<NoteCard>)
    ensures IsSubsequence(shown, NotesData(classId))
    ensures forall i | 0 <= i < |shown| :: CardMatches(search, shown[i])
    ensures forall c | c in NotesData(classId) && CardMatches(search, c) :: c in shown
    ensures search == "" ==> shown == NotesData(classId)
    ensures classId !in NotesClasses ==> shown == []
  {
    var cards := NotesData(classId);
    var keep := (c: NoteCard) => CardMatches(search, c);
    FilterIsSubsequence(cards, keep);
    if search == "" then
      FilterKeepsAll(cards, keep);
      Filter(cards, keep)
    else
      Filter(cards, keep)
  }

  /** The unlock-status query runs only when a user id is stored
      (`enabled: !!userId`); otherwise it holds no data. `received` is the
      `isUnlocked` of the last response, if one has arrived. */
  function UnlockQueryData(stored: Option<int>, received: Option<bool>): Option<bool>
  {
    if stored.None? then None else received
  }

  /** `unlockStatus?.isUnlocked || false`: locked unless a user id is stored and
      the server has answered that the class is unlocked; in particular locked
      with no stored id or before any answer has arrived. */
  function IsUnlocked(stored: Option<int>, received: Option<bool>): (unlocked: bool)
    ensures unlocked <==> stored.Some? && received == Some(true)
  {
    var data := UnlockQueryData(stored, received);
    data.Some? && data.value
  }

  /** Once the status query has answered, the page shows exactly the state the
      gateway holds for the stored user and the class. */
  lemma IsUnlockedShowsGatewayState(s: Storage.Store, userId: int, classId: string)
    ensures var answer := UnlockStatus(s, userId, classId).response.body.isUnlocked;
            IsUnlocked(Some(userId), Some(answer)) == Storage.IsClassUnlocked(s, userId, classId)
  {
  }

  /** The part of the unlock dialog that `handleUnlock` reads and writes. */
  datatype Dialog = Dialog(studentCode: string, error: string, open: bool)

  /** The message the dialog shows for a refused or failed unlock. */
  const DialogError := "Invalid student code. Please try again."

  /** What one submit leaves behind: the dialog, the user id stored in the
      browser, the requests sent to the gateway in order, and the gateway's
      store afterwards. */
  datatype Outcome = Outcome(dialog: Dialog, stored: Option<int>, calls: seq<Request>, store: Storage.Store)

  /** The unlock mutation's success handler: close the dialog, clear the code
      and the error. */
  const ClosedDialog := Dialog("", "", false)

  /** The "verify then unlock" path, taken when no user id is stored: the code
      is verified, the returned id is stored, and unlock-class is sent for it
      whatever the class id. A failure of either call shows the dialog error. */
  function VerifyThenUnlock(d: Dialog, classId: string, s: Storage.Store): (o: Outcome)
    requires d.studentCode == ValidStudentCode
    ensures |o.calls| == 2
    ensures o.stored == Some(VerifyCode(s, Str(d.studentCode)).response.body.userId)
    ensures o.calls == [PostVerifyCode(Str(d.studentCode)), PostUnlockClass(o.stored.value, classId, d.studentCode)]
    ensures Storage.ValidStore(s) && !FitsVarchar(classId, MaxClassIdLength) ==> o.dialog == d.(error := DialogError)
    ensures FitsVarchar(classId, MaxClassIdLength) ==>
              && o.dialog == ClosedDialog
              && |o.calls| == 2
              && o.stored.Some?
              && Storage.GetUserByStudentCode(o.store, ValidStudentCode) == Some(User(o.stored.value, ValidStudentCode))
              && Storage.IsClassUnlocked(o.store, o.stored.value, classId)
  {
    var verify := PostVerifyCode(Str(d.studentCode));
    var v := VerifyCode(s, verify.code);
    if !v.response.Ok() || !v.response.body.VerifiedBody? then
      Outcome(d.(error := DialogError), None, [verify], v.store)
    else
      var newId := v.response.body.userId;
      var unlock := PostUnlockClass(newId, classId, d.studentCode);
      var u := UnlockClass(v.store, newId, classId, d.studentCode);
      assert Storage.HasUser(v.store.users, newId) by {
        var i :| 0 <= i < |v.store.users| && v.store.users[i] == User(newId, ValidStudentCode);
      }
      if !u.response.Ok() then
        Outcome(d.(error := DialogError), Some(newId), [verify, unlock], u.store)
      else
        Outcome(ClosedDialog, Some(newId), [verify, unlock], u.store)
  }

  /** The "unlock only" path, taken when a user id is stored: no verification
      is sent. Its failure propagates out of the handler without touching the
      dialog. */
  function UnlockOnly(d: Dialog, userId: int, classId: string, s: Storage.Store): (o: Outcome)
    requires d.studentCode == ValidStudentCode
    ensures o.calls == [PostUnlockClass(userId, classId, d.studentCode)]
    ensures o.stored == Some(userId)
    ensures FitsVarchar(classId, MaxClassIdLength) && Storage.HasUser(s.users, userId) ==>
              && o.dialog == ClosedDialog
              && Storage.IsClassUnlocked(o.store, userId, classId)
    ensures !Storage.IsClassUnlocked(s, userId, classId) && !Storage.HasUser(s.users, userId) ==>
              o.dialog == d && o.store == s
  {
    var unlock := PostUnlockClass(userId, classId, d.studentCode);
    var u := UnlockClass(s, userId, classId, d.studentCode);
    if !u.response.Ok() then
      Outcome(d, Some(userId), [unlock], u.store)
    else
      Outcome(ClosedDialog, Some(userId), [unlock], u.store)
  }

  /** `handleUnlock`: a code other than the valid one is refused locally with
      no request; otherwise the stored user id chooses between "verify then
      unlock" and "unlock only". With the valid code, a class id that fits its
      column and a stored id (if any) that names an existing user, the dialog
      closes and the class ends up unlocked for the stored user. */
  function HandleUnlock(d: Dialog, stored: Option<int>, classId: string, s: Storage.Store): (o: Outcome)
    ensures d.studentCode != ValidStudentCode ==>
              o == Outcome(d.(error := DialogError), stored, [], s)
    ensures d.studentCode == ValidStudentCode && stored.None? ==>
              && |o.calls| == 2
              && o.stored == Some(VerifyCode(s, Str(d.studentCode)).response.body.userId)
              && o.calls == [PostVerifyCode(Str(d.studentCode)), PostUnlockClass(o.stored.value, classId, d.studentCode)]
              && (Storage.ValidStore(s) && !FitsVarchar(classId, MaxClassIdLength) ==> o.dialog == d.(error := DialogError))
    ensures d.studentCode == ValidStudentCode && stored.Some? ==>
              && o.calls == [PostUnlockClass(stored.value, classId, d.studentCode)]
              && o.stored == stored
    ensures d.studentCode == ValidStudentCode
            && FitsVarchar(classId, MaxClassIdLength)
            && (stored.Some? ==> Storage.HasUser(s.users, stored.value)) ==>
              && o.dialog == ClosedDialog
              && o.stored.Some?
              && Storage.IsClassUnlocked(o.store, o.stored.value, classId)
  {
    if d.studentCode != ValidStudentCode then
      Outcome(d.(error := DialogError), stored, [], s)
    else if stored.None? then
      VerifyThenUnlock(d, classId, s)
    else
      UnlockOnly(d, stored.value, classId, s)
  }
}

=== FILE: options.dfy ===
/** The optional value shared by the server model (nullable columns, optional
    fields) and the client model (route parameters, browser storage). */
module Options {

  datatype Option<T> = None | Some(value: T)
}

=== FILE: routes.dfy ===
/** The HTTP endpoints of the access gateway, each a pure transition from a
    store and the request's inputs to a response and the next store. Route
    parameters arrive already parsed; the body of `/api/unlock-class` arrives
    already validated (see README). */
module Routes {
  import opened Options
  import opened Schema
  import opened Storage

  /** The single student code the server accepts. */
  const ValidStudentCode := "9876"

  const InvalidCodeError := "Invalid student code"
  const InternalErrorMessage := "Internal server error"
  const CodeVerifiedMessage := "Code verified successfully"
  const AlreadyUnlockedMessage := "Class already unlocked"
  const UnlockedMessage := "Class unlocked successfully"

  /** The JSON value of a request-body field: missing, a string, or any other
      JSON value (number, boolean, null, object, array). */
  datatype Field = Missing | Str(s: string) | NonString

  datatype Request =
    | PostVerifyCode(code: Field)
    | GetUnlockedClasses(userId: int)
    | GetUnlockStatus(userId: int, classId: string)
    | PostUnlockClass(userId: int, classId: string, studentCode: string)
    | GetNotes(classId: string)

  /** The JSON bodies the routes send. */
  datatype Body =
    | ErrorBody(error: string)                       // { error }
    | VerifiedBody(userId: int, message: string)     // { success: true, userId, message }
    | SuccessBody(message: string)                   // { success: true, message }
    | StatusBody(isUnlocked: bool)                   // { isUnlocked }
    | GrantsBody(grants: seq<UnlockedClass>)
    | NotesBody(notes: seq<Note>)

  datatype Response = Response(status: int, body: Body)
  {
    /** `response.ok` on the client: a 2xx status. */
    predicate Ok()
    {
      200 <= status < 300
    }
  }

  const Unauthorized := Response(401, ErrorBody(InvalidCodeError))
  const InternalError := Response(500, ErrorBody(InternalErrorMessage))

  datatype Reply = Reply(response: Response, store: Store)

  /** POST `/api/auth/verify-code`. A missing, empty or wrong code is refused
      with 401 and no side effect. The valid code resolves to the user already
      holding it, or to a user created for it when there is none. */
  function VerifyCode(s: Store, studentCode: Field): (r: Reply)
    ensures studentCode != Str(ValidStudentCode) ==> r == Reply(Unauthorized, s)
    ensures studentCode == Str(ValidStudentCode) ==>
              && r.response.status == 200
              && r.response.body.VerifiedBody?
              && r.store.grants == s.grants
              && r.store.notes == s.notes
              && GetUserByStudentCode(r.store, ValidStudentCode) == Some(User(r.response.body.userId, ValidStudentCode))
              && (exists i | 0 <= i < |r.store.users| ::
                    r.store.users[i] == User(r.response.body.userId, ValidStudentCode))
    ensures studentCode == Str(ValidStudentCode) && CodeTaken(s.users, ValidStudentCode) ==>
              && r.store == s
              && GetUserByStudentCode(s, ValidStudentCode) == Some(User(r.response.body.userId, ValidStudentCode))
    ensures studentCode == Str(ValidStudentCode) && !CodeTaken(s.users, ValidStudentCode) ==>
              r.store.users == s.users + [User(r.response.body.userId, ValidStudentCode)]
    ensures ValidStore(s) ==> ValidStore(r.store)
  {
    match studentCode
    case Str(code) =>
      if code == "" || code != ValidStudentCode then Reply(Unauthorized, s)
      else (
        match GetUserByStudentCode(s, code)
        case Some(user) =>
          Reply(Response(200, VerifiedBody(user.id, CodeVerifiedMessage)), s)
        case None =>
          match CreateUser(s, InsertUser(code))
          case Ok(ins) =>
            assert ins.store.users[|s.users|] == ins.row;
            Reply(Response(200, VerifiedBody(ins.row.id, CodeVerifiedMessage)), ins.store)
          case Rejected(_) => Reply(InternalError, s))
    case _ => Reply(Unauthorized, s)
  }

  /** GET `/api/unlocked-classes/:userId`: the user's grants; no side effect. */
  function UnlockedClasses(s: Store, userId: int): (r: Reply)
    ensures r.store == s
    ensures r.response.status == 200 && r.response.body.GrantsBody?
    ensures forall g :: g in r.response.body.grants <==> g in s.grants && g.userId == userId
  {
    Reply(Response(200, GrantsBody(Storage.GetUnlockedClasses(s, userId))), s)
  }

  /** GET `/api/unlocked-classes/:userId/:classId`: whether the pair holds a
      grant; an unknown user simply has none. No side effect. */
  function UnlockStatus(s: Store, userId: int, classId: string): (r: Reply)
    ensures r.store == s
    ensures r.response.status == 200 && r.response.body.StatusBody?
    ensures r.response.body.isUnlocked <==>
              exists k | 0 <= k < |s.grants| :: s.grants[k].userId == userId && s.grants[k].classId == classId
  {
    Reply(Response(200, StatusBody(IsClassUnlocked(s, userId, classId))), s)
  }

  /** POST `/api/unlock-class`: refuses a wrong code with 401; reports an
      existing grant without inserting; otherwise inserts one grant for the
      pair. An insert the schema rejects (class id longer than two characters,
      unknown user) surfaces as 500 and changes nothing. */
  function UnlockClass(s: Store, userId: int, classId: string, studentCode: string): (r: Reply)
    ensures studentCode != ValidStudentCode ==> r == Reply(Unauthorized, s)
    ensures studentCode == ValidStudentCode && IsClassUnlocked(s, userId, classId) ==>
              r == Reply(Response(200, SuccessBody(AlreadyUnlockedMessage)), s)
    ensures studentCode == ValidStudentCode && !IsClassUnlocked(s, userId, classId)
            && FitsVarchar(classId, MaxClassIdLength) && HasUser(s.users, userId) ==>
              && r.response == Response(200, SuccessBody(UnlockedMessage))
              && |r.store.grants| == |s.grants| + 1
              && r.store.grants[..|s.grants|] == s.grants
              && r.store.grants[|s.grants|].userId == userId
              && r.store.grants[|s.grants|].classId == classId
              && IsClassUnlocked(r.store, userId, classId)
    ensures studentCode == ValidStudentCode && !IsClassUnlocked(s, userId, classId)
            && !(FitsVarchar(classId, MaxClassIdLength) && HasUser(s.users, userId)) ==>
              r == Reply(InternalError, s)
    ensures r.store.users == s.users && r.store.notes == s.notes
    ensures forall u, c | u != userId || c != classId ::
              IsClassUnlocked(r.store, u, c) == IsClassUnlocked(s, u, c)
    ensures ValidStore(s) ==> ValidStore(r.store)
  {
    if studentCode != ValidStudentCode then Reply(Unauthorized, s)
    else if IsClassUnlocked(s, userId, classId) then
      Reply(Response(200, SuccessBody(AlreadyUnlockedMessage)), s)
    else
      match Storage.UnlockClass(s, InsertUnlockedClass(userId, classId))
      case Ok(ins) =>
        assert ins.store.grants[|s.grants|] == ins.row;
        Reply(Response(200, SuccessBody(UnlockedMessage)), ins.store)
      case Rejected(_) => Reply(InternalError, s)
  }

  /** GET `/api/notes/:classId`: the class's notes, unfiltered by unlock state;
      an unknown class gives an empty list. No side effect. */
  function Notes(s: Store, classId: string): (r: Reply)
    ensures r.store == s
    ensures r.response.status == 200 && r.response.body.NotesBody?
    ensures forall n :: n in r.response.body.notes <==> n in s.notes && n.classId == classId
    ensures (forall n | n in s.notes :: n.classId != classId) ==> r.response.body.notes == []
  {
    Reply(Response(200, NotesBody(GetNotesByClass(s, classId))), s)
  }

  /** Routes a request to its handler. Notes are never written; only
      verify-code writes users and only unlock-class writes grants. */
  function Handle(s: Store, req: Request): (r: Reply)
    ensures r.store.notes == s.notes
    ensures !req.PostVerifyCode? ==> r.store.users == s.users
    ensures !req.PostUnlockClass? ==> r.store.grants == s.grants
    ensures ValidStore(s) ==> ValidStore(r.store)
  {
    match req
    case PostVerifyCode(code) => VerifyCode(s, code)
    case GetUnlockedClasses(userId) => UnlockedClasses(s, userId)
    case GetUnlockStatus(userId, classId) => UnlockStatus(s, userId, classId)
    case PostUnlockClass(userId, classId, code) => UnlockClass(s, userId, classId, code)
    case GetNotes(classId) => Notes(s, classId)
  }
}

=== FILE: schema.dfy ===
/** The three tables of the access gateway: row shapes, column constraints and
    the shapes accepted for insertion (rows without their generated columns).
    Timestamps (`created_at`, `unlocked_at`) carry no logic and are omitted. */
module Schema {
  import opened Options

  /** `users.student_code` is `varchar(10)`. */
  const MaxStudentCodeLength: nat := 10

  /** `unlocked_classes.class_id` and `notes.class_id` are `varchar(2)`. */
  const MaxClassIdLength: nat := 2

  /** The range of a Postgres `integer` column such as `notes.price`. */
  const MinInteger: int := -0x8000_0000
  const MaxInteger: int := 0x7FFF_FFFF

  /** Column default of `notes.price`. */
  const DefaultNotePrice: int := 40

  /** A row of `users`; `id` is a serial primary key, `studentCode` is unique. */
  datatype User = User(id: int, studentCode: string)

  /** A row of `unlocked_classes`: the grant "user `userId` may read the notes of
      class `classId`". `userId` references `users.id`. */
  datatype UnlockedClass = UnlockedClass(id: int, userId: int, classId: string)

  /** A row of `notes`. */
  datatype Note = Note(
    id: int,
    classId: string,
    subject: string,
    title: string,
    description: Option<string>,
    price: int,
    fileUrl: Option<string>)

  /** Insert shapes: the generated `id` and timestamp columns are omitted, and
      `price` may be left out to take its column default. */
  datatype InsertUser = InsertUser(studentCode: string)

  datatype InsertUnlockedClass = InsertUnlockedClass(userId: int, classId: string)

  datatype InsertNote = InsertNote(
    classId: string,
    subject: string,
    title: string,
    description: Option<string>,
    price: Option<int>,
    fileUrl: Option<string>)

  /** The value fits a `varchar(n)` column. */
  predicate FitsVarchar(s: string, n: nat)
  {
    |s| <= n
  }

  /** The value fits an `integer` column. */
  predicate FitsInteger(x: int)
  {
    MinInteger <= x <= MaxInteger
  }

  predicate ValidUserRow(u: User)
  {
    FitsVarchar(u.studentCode, MaxStudentCodeLength)
  }

  predicate ValidGrantRow(g: UnlockedClass)
  {
    FitsVarchar(g.classId, MaxClassIdLength)
  }

  predicate ValidNoteRow(n: Note)
  {
    FitsVarchar(n.classId, MaxClassIdLength) && FitsInteger(n.price)
  }

  /** The row Postgres stores for an insert that received serial value `id`:
      a missing price takes the column default. */
  function NoteRow(id: int, ins: InsertNote): Note
  {
    Note(id, ins.classId, ins.subject, ins.title, ins.description,
         if ins.price.Some? then ins.price.value else DefaultNotePrice,
         ins.fileUrl)
  }
}

=== FILE: search.dfy ===
/** The search box shared by the chapter list and the notes list: an entry is
    shown when its lowercased title or lowercased subject contains the
    lowercased search text. */
module Search {
  import opened Text

  predicate Matches(title: string, subject: string, search: string)
  {
    Includes(Lower(title), Lower(search)) || Includes(Lower(subject), Lower(search))
  }

  /** The match ignores the case of the search text and of the entry. */
  lemma MatchIgnoresCase(title: string, subject: string, search: string)
    ensures Matches(title, subject, search) == Matches(Lower(title), Lower(subject), Lower(search))
  {
    LowerIsIdempotent(title);
    LowerIsIdempotent(subject);
    LowerIsIdempotent(search);
  }
}

=== FILE: seqs.dfy ===
/** Order-preserving filtering of sequences: the one operation behind both the
    SQL `where` queries of the storage layer and the client-side search lists. */
module Seqs {

  /** `sub` can be obtained from `xs` by dropping elements, keeping the order
      of the ones that remain. */
  ghost predicate IsSubsequence<T>(sub: seq<T>, xs: seq<T>)
    decreases |xs|
  {
    || |sub| == 0
    || (&& |xs| > 0
        && (|| (sub[0] == xs[0] && IsSubsequence(sub[1..], xs[1..]))
            || IsSubsequence(sub, xs[1..])))
  }

  /** The elements of `xs` that satisfy `p`, in their original order.
      Every element is kept exactly as often as it occurs in `xs` when it
      satisfies `p`, and never otherwise. */
  function Filter<T(!new)>(xs: seq<T>, p: T -> bool): (r: seq<T>)
    ensures |r| <= |xs|
    ensures forall i :: 0 <= i < |r| ==> p(r[i])
    ensures forall x :: x in r <==> x in xs && p(x)
    ensures forall x :: multiset(r)[x] == if p(x) then multiset(xs)[x] else 0
    decreases |xs|
  {
    if |xs| == 0 then []
    else
      assert xs == [xs[0]] + xs[1..];
      (if p(xs[0]) then [xs[0]] else []) + Filter(xs[1..], p)
  }

  /** The filtered sequence is an order-preserving subsequence of the input. */
  lemma {:induction false} FilterIsSubsequence<T(!new)>(xs: seq<T>, p: T -> bool)
    ensures IsSubsequence(Filter(xs, p), xs)
    decreases |xs|
  {
    if |xs| > 0 {
      FilterIsSubsequence(xs[1..], p);
      var r := Filter(xs, p);
      if p(xs[0]) {
        assert r[0] == xs[0] && r[1..] == Filter(xs[1..], p);
      } else {
        assert r == Filter(xs[1..], p);
      }
    }
  }

  /** When every element satisfies the predicate, nothing is dropped. */
  lemma {:induction false} FilterKeepsAll<T(!new)>(xs: seq<T>, p: T -> bool)
    requires forall i :: 0 <= i < |xs| ==> p(xs[i])
    ensures Filter(xs, p) == xs
    decreases |xs|
  {
    if |xs| > 0 {
      FilterKeepsAll(xs[1..], p);
      assert xs == [xs[0]] + xs[1..];
    }
  }
}

=== FILE: storage.dfy ===
/** The storage layer (`DbStorage`) over an abstract store: each table is a
    sequence of rows in insertion order, each serial column a counter. Queries
    are filters over the sequences; inserts append one row or are rejected by
    a column constraint, in which case the store is left as it was. */
module Storage {
  import opened Options
  import opened Schema
  import opened Seqs

  datatype Store = Store(
    users: seq<User>,
    grants: seq<UnlockedClass>,
    notes: seq<Note>,
    nextUserId: int,
    nextGrantId: int,
    nextNoteId: int)

  /** Freshly created tables: every serial starts at 1. */
  const EmptyStore := Store([], [], [], 1, 1, 1)

  /** The constraint an insert violated. */
  datatype Violation = ValueTooLong | OutOfRange | UniqueViolation | ForeignKeyViolation

  /** The row an insert returned (`.returning()`) together with the new store. */
  datatype Inserted<T> = Inserted(row: T, store: Store)

  datatype DbResult<T> = Ok(value: T) | Rejected(violation: Violation)

  /** Some user row has primary key `id`. */
  predicate HasUser(users: seq<User>, id: int)
  {
    exists i | 0 <= i < |users| :: users[i].id == id
  }

  /** Some user row already holds `code`. */
  predicate CodeTaken(users: seq<User>, code: string)
  {
    exists i | 0 <= i < |users| :: users[i].studentCode == code
  }

  ghost predicate CodesUnique(users: seq<User>)
  {
    forall i, j | 0 <= i < j < |users| :: users[i].studentCode != users[j].studentCode
  }

  /** The constraints the schema declares: column lengths, the unique student
      code, the foreign key from grants to users, and serial keys handed out in
      increasing order starting at 1. */
  ghost predicate ValidStore(s: Store)
  {
    && 1 <= s.nextUserId && 1 <= s.nextGrantId && 1 <= s.nextNoteId
    && (forall i | 0 <= i < |s.users| :: ValidUserRow(s.users[i]) && 1 <= s.users[i].id < s.nextUserId)
    && (forall i, j | 0 <= i < j < |s.users| :: s.users[i].id < s.users[j].id)
    && CodesUnique(s.users)
    && (forall k | 0 <= k < |s.grants| ::
          && ValidGrantRow(s.grants[k])
          && HasUser(s.users, s.grants[k].userId)
          && 1 <= s.grants[k].id < s.nextGrantId)
    && (forall k, l | 0 <= k < l < |s.grants| :: s.grants[k].id < s.grants[l].id)
    && (forall n | 0 <= n < |s.notes| :: ValidNoteRow(s.notes[n]) && 1 <= s.notes[n].id < s.nextNoteId)
    && (forall n, m | 0 <= n < m < |s.notes| :: s.notes[n].id < s.notes[m].id)
  }

  /** Position of the first user row holding `code`, if any. */
  function FirstIndexWithCode(users: seq<User>, code: string): (r: Option<nat>)
    ensures r.None? <==> !CodeTaken(users, code)
    ensures r.Some? ==> && r.value < |users|
                        && users[r.value].studentCode == code
                        && forall j | 0 <= j < r.value :: users[j].studentCode != code
    decreases |users|
  {
    if |users| == 0 then None
    else if users[0].studentCode == code then Some(0)
    else
      match FirstIndexWithCode(users[1..], code)
      case None => None
      case Some(k) => Some(k + 1)
  }

  /** `getUserByStudentCode`: the first user with an equal code (`limit 1`),
      or nothing when no user holds the code. */
  function GetUserByStudentCode(s: Store, code: string): (r: Option<User>)
    ensures r.None? <==> !CodeTaken(s.users, code)
    ensures r.Some? ==> exists i | 0 <= i < |s.users| ::
                          && s.users[i] == r.value
                          && r.value.studentCode == code
                          && forall j | 0 <= j < i :: s.users[j].studentCode != code
  {
    match FirstIndexWithCode(s.users, code)
    case None => None
    case Some(i) => Some(s.users[i])
  }

  /** In a valid store the user found by code is the only one with that code. */
  lemma GetUserByStudentCodeIsUnique(s: Store, code: string, i: int)
    requires ValidStore(s)
    requires 0 <= i < |s.users| && s.users[i].studentCode == code
    ensures GetUserByStudentCode(s, code) == Some(s.users[i])
  {
    var r := GetUserByStudentCode(s, code);
    var k :| 0 <= k < |s.users| && s.users[k] == r.value;
    assert k == i;
  }

  /** Appending a user keeps every existing user reachable by id. */
  lemma HasUserGrows(users: seq<User>, u: User)
    ensures forall id | HasUser(users, id) :: HasUser(users + [u], id)
  {
    forall id | HasUser(users, id) ensures HasUser(users + [u], id) {
      var i :| 0 <= i < |users| && users[i].id == id;
      assert (users + [u])[i].id == id;
    }
  }

  /** `createUser`: appends one user row with the next serial id, unless the code
      is too long for its column or already held by another user. Grants and
      notes are untouched. */
  function CreateUser(s: Store, ins: InsertUser): (r: DbResult<Inserted<User>>)
    ensures r.Ok? <==> FitsVarchar(ins.studentCode, MaxStudentCodeLength) && !CodeTaken(s.users, ins.studentCode)
    ensures r.Rejected? && !FitsVarchar(ins.studentCode, MaxStudentCodeLength) ==> r.violation == ValueTooLong
    ensures r.Ok? ==> && r.value.row.studentCode == ins.studentCode
                      && r.value.store.users == s.users + [r.value.row]
                      && r.value.store.grants == s.grants
                      && r.value.store.notes == s.notes
    ensures r.Ok? ==> GetUserByStudentCode(r.value.store, ins.studentCode) == Some(r.value.row)
    ensures r.Ok? && ValidStore(s) ==> && !HasUser(s.users, r.value.row.id)
                                       && ValidStore(r.value.store)
  {
    if !FitsVarchar(ins.studentCode, MaxStudentCodeLength) then Rejected(ValueTooLong)
    else if CodeTaken(s.users, ins.studentCode) then Rejected(UniqueViolation)
    else
      var u := User(s.nextUserId, ins.studentCode);
      var s' := s.(users := s.users + [u], nextUserId := s.nextUserId + 1);
      HasUserGrows(s.users, u);
      assert s'.users[|s.users|] == u;
      Ok(Inserted(u, s'))
  }

  /** `getUnlockedClasses`: exactly the grants of `userId`, in store order. */
  function GetUnlockedClasses(s: Store, userId: int): (r: seq<UnlockedClass>)
    ensures IsSubsequence(r, s.grants)
    ensures forall k | 0 <= k < |r| :: r[k].userId == userId
    ensures forall g | g in s.grants && g.userId == userId :: g in r
  {
    var mine := (g: UnlockedClass) => g.userId == userId;
    FilterIsSubsequence(s.grants, mine);
    Filter(s.grants, mine)
  }

  /** `isClassUnlocked`: some grant matches both the user and the class. */
  function IsClassUnlocked(s: Store, userId: int, classId: string): (r: bool)
    ensures r <==> exists k | 0 <= k < |s.grants| :: s.grants[k].userId == userId && s.grants[k].classId == classId
  {
    var pair := (g: UnlockedClass) => g.userId == userId && g.classId == classId;
    var matching := Filter(s.grants, pair);
    assert |matching| > 0 ==> matching[0] in s.grants && pair(matching[0]);
    assert forall k | 0 <= k < |s.grants| :: pair(s.grants[k]) ==> s.grants[k] in matching;
    |matching| > 0
  }

  /** `unlockClass`: appends one grant for the pair, unless the class id is too
      long for its column or the user does not exist (the foreign key).
      Users and notes are untouched and existing grants are kept as they were. */
  function UnlockClass(s: Store, ins: InsertUnlockedClass): (r: DbResult<Inserted<UnlockedClass>>)
    ensures r.Ok? <==> FitsVarchar(ins.classId, MaxClassIdLength) && HasUser(s.users, ins.userId)
    ensures r.Rejected? && !FitsVarchar(ins.classId, MaxClassIdLength) ==> r.violation == ValueTooLong
    ensures r.Rejected? && FitsVarchar(ins.classId, MaxClassIdLength) ==> r.violation == ForeignKeyViolation
    ensures r.Ok? ==> && r.value.row.userId == ins.userId
                      && r.value.row.classId == ins.classId
                      && r.value.store.grants == s.grants + [r.value.row]
                      && r.value.store.users == s.users
                      && r.value.store.notes == s.notes
    ensures r.Ok? && ValidStore(s) ==> ValidStore(r.value.store)
  {
    if !FitsVarchar(ins.classId, MaxClassIdLength) then Rejected(ValueTooLong)
    else if !HasUser(s.users, ins.userId) then Rejected(ForeignKeyViolation)
    else
      var g := UnlockedClass(s.nextGrantId, ins.userId, ins.classId);
      Ok(Inserted(g, s.(grants := s.grants + [g], nextGrantId := s.nextGrantId + 1)))
  }

  /** `getNotesByClass`: exactly the notes of the class, in store order; a class
      with no notes gives the empty sequence. */
  function GetNotesByClass(s: Store, classId: string): (r: seq<Note>)
    ensures IsSubsequence(r, s.notes)
    ensures forall n | n in r :: n.classId == classId
    ensures forall n | n in s.notes && n.classId == classId :: n in r
    ensures r == [] <==> forall n | n in s.notes :: n.classId != classId
  {
    var ofClass := (n: Note) => n.classId == classId;
    FilterIsSubsequence(s.notes, ofClass);
    Filter(s.notes, ofClass)
  }

  /** `createNote`: appends one note row; a missing price takes the column
      default of 40. Rejected when the class id is too long for its column or
      the given price is outside the range of its `integer` column. */
  function CreateNote(s: Store, ins: InsertNote): (r: DbResult<Inserted<Note>>)
    ensures r.Ok? <==> FitsVarchar(ins.classId, MaxClassIdLength) && (ins.price.None? || FitsInteger(ins.price.value))
    ensures r.Rejected? && !FitsVarchar(ins.classId, MaxClassIdLength) ==> r.violation == ValueTooLong
    ensures r.Rejected? && FitsVarchar(ins.classId, MaxClassIdLength) ==> r.violation == OutOfRange
    ensures r.Ok? ==> && r.value.store.notes == s.notes + [r.value.row]
                      && r.value.store.users == s.users
                      && r.value.store.grants == s.grants
                      && r.value.row.classId == ins.classId
                      && r.value.row.subject == ins.subject
                      && r.value.row.title == ins.title
                      && r.value.row.description == ins.description
                      && r.value.row.fileUrl == ins.fileUrl
                      && (ins.price.None? ==> r.value.row.price == DefaultNotePrice)
                      && (ins.price.Some? ==> r.value.row.price == ins.price.value)
    ensures r.Ok? && ValidStore(s) ==> ValidStore(r.value.store)
  {
    if !FitsVarchar(ins.classId, MaxClassIdLength) then Rejected(ValueTooLong)
    else if ins.price.Some? && !FitsInteger(ins.price.value) then Rejected(OutOfRange)
    else
      var n := NoteRow(s.nextNoteId, ins);
      Ok(Inserted(n, s.(notes := s.notes + [n], nextNoteId := s.nextNoteId + 1)))
  }
}

=== FILE: text.dfy ===
/** The two string operations the search boxes use: `toLowerCase` (ASCII letters
    only; see README) and `includes`. */
module Text {

  predicate IsUpper(c: char)
  {
    'A' <= c <= 'Z'
  }

  function LowerChar(c: char): char
  {
    if IsUpper(c) then (c as int - 'A' as int + 'a' as int) as char else c
  }

  /** `toLowerCase`: every ASCII capital replaced by its small letter. */
  function Lower(s: string): (r: string)
    ensures |r| == |s|
    ensures forall i :: 0 <= i < |s| ==> r[i] == LowerChar(s[i])
  {
    seq(|s|, i requires 0 <= i < |s| => LowerChar(s[i]))
  }

  /** A lowered string holds no capital, and lowering it again changes nothing. */
  lemma LowerIsIdempotent(s: string)
    ensures forall i :: 0 <= i < |s| ==> !IsUpper(Lower(s)[i])
    ensures Lower(Lower(s)) == Lower(s)
  {
  }

  /** `needle` starts at position `i` of `hay`. */
  ghost predicate OccursAt(needle: string, hay: string, i: int)
  {
    0 <= i <= |hay| && needle <= hay[i..]
  }

  /** `hay.includes(needle)`: the needle occurs somewhere in the haystack
      (the empty needle occurs everywhere). */
  function Includes(hay: string, needle: string): (r: bool)
    ensures r <==> exists i :: OccursAt(needle, hay, i)
    decreases |hay|
  {
    if needle <= hay then
      assert OccursAt(needle, hay, 0);
      true
    else if |hay| == 0 then
      false
    else
      OccursInTail(needle, hay);
      Includes(hay[1..], needle)
  }

  /** When the needle is not a prefix of the haystack, it occurs in the haystack
      exactly when it occurs in the haystack's tail. */
  lemma OccursInTail(needle: string, hay: string)
    requires |hay| > 0 && !(needle <= hay)
    ensures (exists i :: OccursAt(needle, hay, i)) <==> (exists j :: OccursAt(needle, hay[1..], j))
  {
    forall j | OccursAt(needle, hay[1..], j)
      ensures OccursAt(needle, hay, j + 1)
    {
      assert hay[1..][j..] == hay[j + 1..];
    }
    forall i | OccursAt(needle, hay, i)
      ensures OccursAt(needle, hay[1..], i - 1)
    {
      assert i != 0;
      assert hay[1..][i - 1..] == hay[i..];
    }
  }
}
